=== FILE: README.md ===
# Laravel error reporter — a Dafny model

This project models the core of the `ErrorReporter` class of the Laravel
package `codexpedite/laravel-error-reporter`. The class decides whether an
exception is reported, suppresses repeats of the same error through a TTL
cache, builds the webhook payload (repository, title, tags, message) and
either queues it or sends it synchronously.

Layout, one module per file:

- `wrappers.dfy` (`Wrappers`): `Option`, standing for PHP `null` and missing array keys.
- `text.dfy` (`Text`): the PHP and Laravel string primitives the reporter uses: `%d`, `basename`, `class_basename`, `strtolower`, `str_replace`, `rtrim`, `implode`, and string truthiness.
- `types.dfy` (`Types`): the exception, request, configuration and ambient values; the foreign primitives (md5, `instanceof`, `json_encode`) as function-valued fields of `Runtime`; the shipped configuration as `Defaults`.
- `fingerprint.dfy` (`Fingerprint`): `generateHash` and the rate-limit cache key.
- `rate_limit.dfy` (`RateLimit`): the TTL cache, as a class `Store` that holds a map from key to expiry second.
- `title.dfy` (`Title`): `Str::limit` and `formatTitle`.
- `tags.dfy` (`Tags`): `generateTags`, both as written and corrected (see Findings).
- `stack_trace.dfy` (`StackTrace`): `formatStackTrace`.
- `request_data.dfy` (`RequestData`): the masking loop and the request section of `formatRequestData`.
- `payload.dfy` (`Payload`): `getRepositoryName`, `formatMessage` and `preparePayload`.
- `reporter.dfy` (`Reporter`): `shouldReport`, as the specification function `Decide` and as the method `ErrorReporter.ShouldReport` proved equal to it; `report`; the request that `sendReport` issues.

The clock, the running environment, the request, the application URL and
the versions are parameters (`now`, `Types.Ambient`). md5, the class
hierarchy used by `instanceof`, and `json_encode` are parameters too
(`Types.Runtime`). Of md5 the model knows only that it returns 32 lowercase
hex characters.

Points where the code's behaviour is easy to miss, and which the model
follows:
- The tags keep the order of first occurrence; they are not an unordered set. The code also keeps each tag's original array key. `Tags.GenerateTagsAsWritten` models that, and the payload uses the re-indexed list (see Findings).
- `Cache::put` with a TTL that is not positive forgets the key. So a `cache_minutes` of 0 or less disables suppression.
- The title's cut message also loses its trailing whitespace before `...` is added.
- A stack-trace limit below zero keeps the last frames, numbered by their position in the trace.

## Model

| member | source | states |
|---|---|---|
| `Text.IntToString` | src/ErrorReporter.php:159-164 | `%d` gives a non-empty string of decimal digits, with a leading `-` exactly for a negative number, and without leading zeros: the digits start with `0` only for the number 0, which renders as `0` |
| `Text.IntToStringRoundTrip` | src/ErrorReporter.php:159-164 | the `%d` rendering of a line number can be read back, so distinct lines give distinct text |
| `Text.Basename` | src/ErrorReporter.php:129 | `basename` returns the last component of the path: a slash-free suffix of the path without its trailing slashes that is the whole of it or follows a `/`. A path without `/` is returned whole |
| `Text.ClassBasename` | src/ErrorReporter.php:134 | `class_basename` returns the last namespace component: a separator-free suffix of the name (trailing separators dropped) that is the whole of it or follows a separator. A name without separators is returned whole |
| `Text.ReplaceChar` | src/ErrorReporter.php:124 | `str_replace` of one character keeps the length, replaces every occurrence and changes nothing else |
| `Text.Lower` | src/ErrorReporter.php:148 | `strtolower` keeps the length and lowers each ASCII letter, leaving every other character as it is |
| `Text.RTrim` | src/ErrorReporter.php:130 | `rtrim` returns the longest prefix that does not end in PHP whitespace; only whitespace is dropped |
| `Text.Join` | src/ErrorReporter.php:220 | `implode`: no contract of its own. `Text.SplitJoin` proves that splitting it at the separator gives the pieces back |
| `Text.SplitJoin` | src/ErrorReporter.php:220 | `implode("\n")` of lines without a line break can be split back into exactly those lines |
| `Fingerprint.Identifier` | src/ErrorReporter.php:159-164 | `"{class}:{file}:{line}"`: no contract of its own. `Fingerprint.DistinctLinesDistinctIdentifiers` proves that for one class and file it determines the line |
| `Fingerprint.GenerateHash` | src/ErrorReporter.php:157-167 | the fingerprint is 13 characters: `hash-` then 8 lowercase hex digits |
| `Fingerprint.SameOriginSameFingerprint` | src/ErrorReporter.php:157-167 | the same class, file and line give the same fingerprint, whatever the message or trace |
| `Fingerprint.DistinctLinesDistinctIdentifiers` | src/ErrorReporter.php:159-164 | for one class and file, different lines are hashed from different strings |
| `Fingerprint.CacheKey` | src/ErrorReporter.php:91 | the cache key is `error_reporter_` followed by the fingerprint |
| `RateLimit.Stored` | src/ErrorReporter.php:97-99 | after a put, the key is live for exactly the TTL that follows (never, if the TTL is not positive); every other key keeps its liveness and presence |
| `RateLimit.StoredLiveUntilExpiry` | src/ErrorReporter.php:97-99 | a stored key reads as present at a later time exactly while less than the TTL has passed |
| `RateLimit.Store.constructor` | src/ErrorReporter.php:93 | the cache starts empty |
| `RateLimit.Store.Has` | src/ErrorReporter.php:93 | `Cache::has` is true exactly for a key whose expiry is still ahead |
| `RateLimit.Store.Put` | src/ErrorReporter.php:97-99 | `Cache::put` changes the entries as `Stored` says |
| `Title.Limit` | src/ErrorReporter.php:130 | a message of at most 80 characters is kept verbatim. A longer one becomes a prefix of the message plus `...`, at most 83 characters. The prefix has no trailing whitespace, and only whitespace was dropped from the first 80 characters |
| `Title.FormatTitle` | src/ErrorReporter.php:127-139 | the title starts with `{ShortClass}: {limited message}`, ends with ` ({basename} line {line})`, and is exactly these parts long |
| `Title.ShortMessageVerbatim` | src/ErrorReporter.php:130-138 | a message of at most 80 characters appears verbatim in the title |
| `Title.ExampleTitle` | src/ErrorReporter.php:127-139 | `NullPointerAccess` with `x is null` at `/app/Foo.php` line 42 gives the title `NullPointerAccess: x is null (Foo.php line 42)` |
| `Tags.Unique` | src/ErrorReporter.php:154 | de-duplication leaves no duplicates, loses no tag and adds none |
| `Tags.UniquePrefix` | src/ErrorReporter.php:154 | de-duplicating a longer list only appends to the result for its prefix, so the order of first occurrences is kept |
| `Tags.UniqueOfDistinct` | src/ErrorReporter.php:154 | a list without duplicates is unchanged |
| `Tags.MergedTags` | src/ErrorReporter.php:143-152 | the base tags followed by the additional tags, when there are any: no contract of its own. `Tags.MergedMembers` proves it holds exactly the base and additional tags |
| `Tags.MergedMembers` | src/ErrorReporter.php:143-152 | a tag is merged exactly when it is a base tag or an additional tag |
| `Tags.GenerateTags` | src/ErrorReporter.php:141-155 | the tags have no duplicates and are exactly `bug`, `error`, the fingerprint, the lower-case short class and the additional tags. Indexes 0, 1 and 2 hold `bug`, `error` and the fingerprint |
| `Tags.UniqueKeyed` | src/ErrorReporter.php:154 | `array_unique` as PHP runs it keeps the same values as `Unique`, in the same order |
| `Tags.KeyedFirstOccurrences` | src/ErrorReporter.php:154 | each kept tag's key is the position of its first occurrence in the input (the tag occurs nowhere before it), and the keys increase |
| `Tags.GenerateTagsAsWritten` | src/ErrorReporter.php:141-155 | the tags as written hold the same values, in the same order, as the corrected list |
| `Tags.TagsAsWrittenNotAList` | src/ErrorReporter.php:147-154 | for an exception of class `Error` with one additional tag, the keys that survive are 0, 1, 2 and 4, so the array is not a list |
| `Tags.KeyedWithInnerDuplicate` | src/ErrorReporter.php:154 | `array_unique` of `[a, b, c, b, d]` keeps keys 0, 1, 2 and 4 |
| `StackTrace.Take` | src/ErrorReporter.php:208-211 | `take(n)` keeps the first `n` frames numbered from 0; a negative `n` keeps the last `-n` frames with their positions in the trace |
| `StackTrace.RenderFrame` | src/ErrorReporter.php:212-219 | each line starts with `#{index} {file}({line}): `, where a missing file is `unknown` and a missing line is `0`, and ends with `()`. A frame without a class ends in `): {function}()`, with no call operator; a frame with a class ends in `): {class}{type}{function}()`, with `::` when the type is missing |
| `StackTrace.NoClassNoCallType` | src/ErrorReporter.php:217-218 | for a frame without a class, the frame's call operator does not change the rendered line |
| `StackTrace.FrameLines` | src/ErrorReporter.php:210-219 | one rendered line per kept frame |
| `StackTrace.FormatStackTrace` | src/ErrorReporter.php:206-221 | the rendered frame lines joined by line breaks: no contract of its own. `StackTrace.SplitIntoFrameLines`, `StackTrace.StackTraceLines` and `StackTrace.EmptyStackTrace` state its properties |
| `StackTrace.SplitIntoFrameLines` | src/ErrorReporter.php:206-221 | the joined trace splits back into the rendered frame lines |
| `StackTrace.StackTraceLines` | src/ErrorReporter.php:206-221 | the trace has `min(stack_trace_lines, frames)` lines, and line `k` renders frame `k` with index `k`. For a negative limit it has the last frames with their own indexes |
| `StackTrace.EmptyStackTrace` | src/ErrorReporter.php:210-220 | no frames, or a limit of 0, give an empty trace |
| `StackTrace.IntToStringOnOneLine` | src/ErrorReporter.php:213 | a rendered number never contains a line break |
| `StackTrace.RenderOnOneLine` | src/ErrorReporter.php:212-219 | a frame whose texts have no line break renders as one line |
| `StackTrace.BareFrameRender` | src/ErrorReporter.php:215-219 | a frame with every key missing renders as `#{i} unknown(0): unknown()` |
| `StackTrace.MethodFrameRender` | src/ErrorReporter.php:217-218 | a frame with a class but no call operator renders as `Class::function()` |
| `RequestData.Masked` | src/ErrorReporter.php:228-232 | the request data after masking: no contract of its own. `RequestData.MaskingHidesSensitive`, `RequestData.MaskingIdempotent` and `RequestData.MaskingForgetsSecrets` state its properties, and `RequestData.MaskSensitive` is proved equal to it |
| `RequestData.MaskSensitive` | src/ErrorReporter.php:228-232 | the masking loop produces exactly the masked map `Masked(data, keys)` |
| `RequestData.MaskedStep` | src/ErrorReporter.php:229-231 | one more sensitive key masks that key only if it is set |
| `RequestData.MaskingHidesSensitive` | src/ErrorReporter.php:228-232 | masking adds and removes no key; every set sensitive key holds `***MASKED***`; every other value is unchanged |
| `RequestData.MaskingIdempotent` | src/ErrorReporter.php:228-232 | masking twice equals masking once |
| `RequestData.PasswordExample` | src/ErrorReporter.php:228-232 | `{"password": "abc123", "email": "a@b.com"}` with key `password` masks the password and keeps the e-mail |
| `RequestData.MaskingForgetsSecrets` | src/ErrorReporter.php:228-232 | request data that differs only in the set values of sensitive top-level keys masks to the same map |
| `RequestData.FormatRequestData` | src/ErrorReporter.php:223-251 | the request section, or `**Running in Console**` outside a request: no contract of its own. `RequestData.UrlSentVerbatim` and `RequestData.RequestSectionForgetsSecrets` state its properties |
| `RequestData.RequestSectionForgetsSecrets` | src/ErrorReporter.php:223-251 | for any JSON encoder and a fixed URL, method, IP, user agent and user, the Request Data block cannot depend on the value of a sensitive top-level key |
| `RequestData.UrlSentVerbatim` | src/ErrorReporter.php:235-241 | the section starts with the full URL as it is, query string included, unmasked |
| `Payload.RepositoryName` | src/ErrorReporter.php:115-125 | a truthy configured repository is used verbatim. Otherwise the result has the app URL host's length, each `.` of the host becomes `-`, and every other character is kept; with no host the result is `unknown`, and for an unparseable URL it is empty |
| `Payload.FormatMessage` | src/ErrorReporter.php:169-204 | the issue body: no contract of its own. `Payload.MessageKeepsFullText` and `Payload.MessageIgnoresRequestWhenOff` state its properties |
| `Payload.MessageKeepsFullText` | src/ErrorReporter.php:173-182 | the body starts with `**Error:** {message}` and contains the whole message, untruncated |
| `Payload.MessageIgnoresRequestWhenOff` | src/ErrorReporter.php:184-186 | with `include_request_data` off, the body does not depend on the request |
| `Payload.PreparePayload` | src/ErrorReporter.php:105-113 | the payload holds the repository name, the title, the tags and the message |
| `Payload.PayloadForgetsSecrets` | src/ErrorReporter.php:105-113 | two reports whose requests agree on the URL and everything else but the values of sensitive top-level request-data keys are identical: such a value cannot reach the webhook through the Request Data block |
| `Reporter.IgnoredBy` | src/ErrorReporter.php:83-87 | some class on the ignore list is a supertype of the exception's class: no contract of its own. `Reporter.AcceptedIff` and `Reporter.ErrorReporter.ShouldReport` use it |
| `Reporter.Decide` | src/ErrorReporter.php:73-103 | the verdict and the new cache of `shouldReport`: no contract of its own. `Reporter.AcceptedIff`, `Reporter.OnlyAcceptanceWritesCache`, `Reporter.SecondWithinWindowSuppressed` and `Reporter.AcceptedAgainAfterWindow` state its properties, and `Reporter.ErrorReporter.ShouldReport` is proved equal to it |
| `Reporter.AcceptedIff` | src/ErrorReporter.php:73-103 | an occurrence is accepted exactly when it is enabled, its environment is listed, it is not ignored, and (with rate limiting) its key is not live |
| `Reporter.OnlyAcceptanceWritesCache` | src/ErrorReporter.php:89-100 | the cache changes only when rate limiting accepts, and then only at the occurrence's own key |
| `Reporter.SecondWithinWindowSuppressed` | src/ErrorReporter.php:89-99 | after an acceptance, the same class, file and line within `cache_minutes` is a duplicate and the cache stays as it is |
| `Reporter.AcceptedAgainAfterWindow` | src/ErrorReporter.php:89-99 | once the window has passed, the same error is accepted again |
| `Reporter.MakeJob` | src/Jobs/ReportErrorJob.php:24-32 | the queued job carries the payload and the configuration, and it is put on `queue_name` only when that name is truthy |
| `Reporter.SendReport` | src/ErrorReporter.php:35-55 | with an empty (falsy) webhook URL no request is attempted. Otherwise one POST goes to the URL with the payload, the timeout and the retry policy; the secret header is present exactly when the secret key is truthy |
| `Reporter.LoggedHash` | src/ErrorReporter.php:59 | `issueTags[2] ?? 'unknown'`: no contract of its own. `Reporter.LoggedHashIsFingerprint` proves it is the fingerprint |
| `Reporter.LoggedHashIsFingerprint` | src/ErrorReporter.php:57-61 | `issueTags[2]`, which the success log reports as the hash, is the fingerprint |
| `Reporter.ErrorReporter.constructor` | src/ErrorReporter.php:15-18 | the reporter keeps its configuration |
| `Reporter.ErrorReporter.ShouldReport` | src/ErrorReporter.php:73-103 | the loop over the ignore list and the cache calls give `Decide`'s verdict, and leave the cache as `Decide` says |
| `Reporter.ErrorReporter.Report` | src/ErrorReporter.php:20-33 | a rejected occurrence builds and delivers nothing. An accepted one is either queued (`use_queue`) or sent synchronously, never both, and the cache is updated by the filter alone |
| `Reporter.EndToEndExample` | src/ErrorReporter.php:20-167 | with the shipped configuration plus a webhook URL, the first `NullPointerAccess` at Foo.php line 42 is accepted and posted with the expected title and a `hash-[0-9a-f]{8}` tag. A second one within five minutes is a duplicate |

## Left out

- HTTP delivery (src/ErrorReporter.php:42-70): the request is only described (`Reporter.HttpPost`). The timeout, the retries, the response classification and the `Log` calls are network I/O and library behaviour.
- Logging: the warning for a missing webhook URL is stood for by `Delivery.NotConfigured`, and the other log records are not modelled.
- `ReportErrorJob::handle`, `$tries`, `$backoff` and `failed` are left out. They are the queue worker's behaviour, and `handle` only calls `sendReport` with the job's configuration. The listener, the facade, the service provider and the test command are framework wiring and console I/O.
- md5, `instanceof` and `json_encode` are parameters. The model does not know their internals.
- `Title.Limit`: counts characters, not display width. `mb_strwidth` counts East Asian wide characters as two, so such messages are cut at a different place.
- `Text.Basename`: only `/` separates path components (POSIX). The Windows `\` separator and locale effects are not modelled.
- `Text.Lower`: changes ASCII letters only, as `strtolower` does from PHP 8.2 on. In earlier versions it depends on the locale, which is not modelled.
- The environment check uses string equality. `in_array` compares loosely, which differs only for numeric-looking strings.
- Configuration values are taken as already resolved (`Types.Config`). The `??` fallbacks of ErrorReporter.php apply only to missing keys. Loading and merging the configuration are not part of this model.
- Request and context values are simplified to null, text or an opaque JSON composite (`Types.Value`). Masking looks at top-level keys only, as the code does. PHP's conversion of numeric string keys to integers is not modelled.
- Time is whole seconds. When the cache evicts expired entries cannot be observed, so it is not modelled; an expired entry never reads as present.
- `Payload.PreparePayload`: carries the corrected, re-indexed tag list (`Tags.GenerateTags`), not the keyed array the code builds. The code's array is modelled by `Tags.GenerateTagsAsWritten`, and the difference is under Findings.
- `RequestData.RequestSectionForgetsSecrets`: requires both requests to have the same URL. `fullUrl` includes the query string, which is sent unmasked (`RequestData.UrlSentVerbatim`). Values under nested keys such as `user[password]` are also sent unmasked, because masking looks at top-level keys only.
- `Payload.PayloadForgetsSecrets`: the same limits apply. A sensitive value in the URL's query string or under a nested key reaches the webhook.
- `Reporter.ErrorReporter.Report` and `Reporter.ErrorReporter.ShouldReport`: the code catches no exception. An exception from the cache backend (`Cache::has`, `Cache::put`) or from `dispatch` reaches the caller of `report`. The model's `Store` and queue cannot fail.
- Races between concurrent reporters on the shared cache are left out, because the model is single-threaded.

## Findings

| source | as written | input that shows it | evidently intended | confidence | as-written member | corrected member |
|---|---|---|---|---|---|---|
| src/ErrorReporter.php:154 | `array_unique($tags)` keeps each surviving tag's original key, so removing a duplicate that is not last leaves a gap. `json_encode` then sends `issueTags` as a JSON object instead of a list | an exception of PHP's class `Error` (its lower-cased short name is `error`) with `additional_tags = ['laravel']`: the keys are 0, 1, 2, 4 | `array_values(array_unique($tags))`, a list of unique tags | medium; not executed | `Tags.GenerateTagsAsWritten`, `Tags.TagsAsWrittenNotAList` | `Tags.GenerateTags` |

=== FILE: fingerprint.dfy ===
/** The fingerprint that identifies an error occurrence (`generateHash`). */
module Fingerprint {
  import opened Text
  import opened Types

  const Marker := "hash-"

  /** The string that is hashed: `"{class}:{file}:{line}"`, with the fully qualified class. */
  function Identifier(className: string, file: string, line: int): string
  {
    className + ":" + file + ":" + IntToString(line)
  }

  /**
   * `"hash-"` followed by the first 8 characters of md5 of the identifier:
   * always 13 characters matching `hash-[0-9a-f]{8}`.
   */
  function GenerateHash(md5: string -> Digest, e: Throwable): (r: string)
    ensures |r| == 13
    ensures r[..5] == Marker
    ensures forall i | 5 <= i < 13 :: IsHexDigit(r[i])
  {
    Marker + md5(Identifier(e.className, e.file, e.line))[..8]
  }

  /** The rate-limit cache key for a fingerprint. */
  function CacheKey(fingerprint: string): (r: string)
    ensures IsPrefix("error_reporter_", r) && r[15..] == fingerprint
  {
    "error_reporter_" + fingerprint
  }

  /** Only the class, file and line decide the fingerprint; message and trace do not. */
  lemma SameOriginSameFingerprint(md5: string -> Digest, e1: Throwable, e2: Throwable)
    requires e1.className == e2.className && e1.file == e2.file && e1.line == e2.line
    ensures GenerateHash(md5, e1) == GenerateHash(md5, e2)
  {
  }

  /**
   * Distinct lines of the same class and file are hashed from distinct
   * strings, so they collide only if md5 collides on its 8-character prefix.
   */
  lemma DistinctLinesDistinctIdentifiers(className: string, file: string, l1: int, l2: int)
    requires l1 != l2
    ensures Identifier(className, file, l1) != Identifier(className, file, l2)
  {
    var p := className + ":" + file + ":";
    if Identifier(className, file, l1) == Identifier(className, file, l2) {
      assert IntToString(l1) == Identifier(className, file, l1)[|p|..];
      assert IntToString(l2) == Identifier(className, file, l2)[|p|..];
      IntToStringInjective(l1, l2);
    }
  }
}

=== FILE: payload.dfy ===
/**
 * The report body sent to the webhook (`preparePayload`): repository,
 * title, tags and the formatted message.
 */
module Payload {
  import opened Wrappers
  import opened Text
  import opened Types
  import Title
  import Tags
  import StackTrace
  import RequestData

  datatype Payload = Payload(
    repository: string,
    issueTitle: string,
    issueTags: seq<string>,
    issueMessage: string)

  /**
   * `getRepositoryName`: the configured repository when it is truthy;
   * otherwise the host of `app.url` with every `.` turned into `-`,
   * "unknown" when the URL has no host, and "" when it cannot be parsed
   * (`parse_url` gives `false`, which `??` does not replace).
   */
  function RepositoryName(repository: Option<string>, appUrlHost: UrlHost): (r: string)
    ensures TruthyOpt(repository) ==> r == repository.value
    ensures !TruthyOpt(repository) ==>
      && '.' !in r
      && (appUrlHost.Host? ==>
            && |r| == |appUrlHost.name|
            && (forall i | 0 <= i < |r| :: appUrlHost.name[i] == '.' ==> r[i] == '-')
            && forall i | 0 <= i < |r| :: appUrlHost.name[i] != '.' ==> r[i] == appUrlHost.name[i])
      && (appUrlHost.NoHost? ==> r == "unknown")
      && (appUrlHost.Unparseable? ==> r == "")
  {
    if TruthyOpt(repository) then repository.value
    else
      match appUrlHost
      case Host(name) => ReplaceChar(name, '.', '-')
      case NoHost => "unknown"
      case Unparseable => ""
  }

  /** The context section, present only when the caller passed some context. */
  function ContextSection(context: map<string, Value>, jsonEncode: map<string, Value> -> string): string
  {
    if |context| > 0 then "\n\n**Context:**\n```json\n" + jsonEncode(context) + "\n```" else ""
  }

  /** The opening line of the body: the full exception message. */
  function ErrorLine(e: Throwable): string
  {
    "**Error:** " + e.message + "\n\n"
  }

  /** File, line and the stack trace in a code block. */
  function OriginSection(e: Throwable, traceLines: int): string
  {
    "**File:** " + e.file + "\n"
    + "**Line:** " + IntToString(e.line) + "\n\n"
    + "**Stack Trace:**\n```\n" + StackTrace.FormatStackTrace(e.trace, traceLines) + "\n```\n\n"
  }

  function EnvironmentSection(ambient: Ambient): string
  {
    "\n\n**Environment:** " + ambient.environment + "\n"
    + "**PHP Version:** " + ambient.phpVersion + "\n"
    + "**Laravel Version:** " + ambient.laravelVersion + "\n"
    + "**Time:** " + ambient.time + " UTC"
  }

  /** Everything after the error line. */
  function MessageRest(e: Throwable, context: map<string, Value>, ambient: Ambient,
                       config: Config, rt: Runtime): string
  {
    OriginSection(e, config.stackTraceLines)
    + (if config.includeRequestData
       then RequestData.FormatRequestData(ambient.request, config.sensitiveKeys, rt.jsonEncode)
       else "")
    + ContextSection(context, rt.jsonEncode)
    + EnvironmentSection(ambient)
  }

  /**
   * `formatMessage`: the message, file, line and stack trace; the request
   * section when `include_request_data` is on; the context; the
   * environment, PHP and Laravel versions and the time.
   */
  function FormatMessage(e: Throwable, context: map<string, Value>, ambient: Ambient,
                         config: Config, rt: Runtime): string
  {
    ErrorLine(e) + MessageRest(e, context, ambient, config, rt)
  }

  /** The body always carries the whole message, however long: only the title truncates it. */
  lemma MessageKeepsFullText(e: Throwable, context: map<string, Value>, ambient: Ambient,
                             config: Config, rt: Runtime)
    ensures IsPrefix("**Error:** " + e.message + "\n\n", FormatMessage(e, context, ambient, config, rt))
    ensures Contains(FormatMessage(e, context, ambient, config, rt), e.message)
  {
    var head := ErrorLine(e);
    var m := head + MessageRest(e, context, ambient, config, rt);
    assert m[..|head|] == head;
    assert m[11..11 + |e.message|] == head[11..11 + |e.message|];
    assert OccursAt(m, e.message, 11);
  }

  /** With request data turned off, nothing about the request reaches the body. */
  lemma MessageIgnoresRequestWhenOff(e: Throwable, context: map<string, Value>, a1: Ambient, a2: Ambient,
                                     config: Config, rt: Runtime)
    requires !config.includeRequestData
    requires a1.(request := a2.request) == a2
    ensures FormatMessage(e, context, a1, config, rt) == FormatMessage(e, context, a2, config, rt)
  {
  }

  function PreparePayload(e: Throwable, context: map<string, Value>, ambient: Ambient,
                          config: Config, rt: Runtime): (p: Payload)
    ensures p.repository == RepositoryName(config.repository, ambient.appUrlHost)
    ensures p.issueTitle == Title.FormatTitle(e)
    ensures p.issueTags == Tags.GenerateTags(rt.md5, e, config.additionalTags)
    ensures p.issueMessage == FormatMessage(e, context, ambient, config, rt)
  {
    Payload(
      RepositoryName(config.repository, ambient.appUrlHost),
      Title.FormatTitle(e),
      Tags.GenerateTags(rt.md5, e, config.additionalTags),
      FormatMessage(e, context, ambient, config, rt))
  }

  /**
   * Two reports of the same error during requests that agree on everything
   * but the values of sensitive top-level request-data keys are identical:
   * such a value cannot reach the payload through the Request Data block.
   * The URL, which is sent verbatim, is required to be the same.
   */
  lemma PayloadForgetsSecrets(e: Throwable, context: map<string, Value>, a1: Ambient, a2: Ambient,
                              config: Config, rt: Runtime)
    requires a1.request.Some? && a2.request.Some?
    requires a1.(request := a2.request) == a2
    requires a1.request.value.(data := a2.request.value.data) == a2.request.value
    requires RequestData.SameButSecrets(a1.request.value.data, a2.request.value.data, config.sensitiveKeys)
    ensures PreparePayload(e, context, a1, config, rt) == PreparePayload(e, context, a2, config, rt)
  {
    RequestData.RequestSectionForgetsSecrets(a1.request.value, a2.request.value, config.sensitiveKeys, rt.jsonEncode);
  }
}

=== FILE: rate_limit.dfy ===
/**
 * The TTL cache behind rate limiting (Laravel's `Cache::has` / `Cache::put`).
 * An entry maps a key to the second at which it expires; a key is present
 * only while `now` is strictly before its expiry. Expired entries may stay
 * in the map: they never read as present.
 */
module RateLimit {

  predicate Live(entries: map<string, int>, key: string, now: int)
  {
    key in entries && now < entries[key]
  }

  /**
   * The entries after `put(key, true, ttl)`: the key expires `ttl` seconds
   * from `now`; a ttl that is not positive forgets the key instead.
   */
  function Stored(entries: map<string, int>, key: string, ttl: int, now: int): (r: map<string, int>)
    ensures forall t :: Live(r, key, t) <==> 0 < ttl && t < now + ttl
    ensures forall k, t | k != key :: Live(r, k, t) <==> Live(entries, k, t)
    ensures forall k | k != key :: k in r <==> k in entries
  {
    if ttl <= 0 then entries - {key} else entries[key := now + ttl]
  }

  /** A stored key is live for exactly the ttl that follows the store. */
  lemma StoredLiveUntilExpiry(entries: map<string, int>, key: string, ttl: int, now: int, later: int)
    requires now <= later
    ensures Live(Stored(entries, key, ttl, now), key, later) <==> later - now < ttl
  {
  }

  class Store {
    var entries: map<string, int>

    constructor ()
      ensures entries == map[]
    {
      entries := map[];
    }

    /** `Cache::has`: the key is present and not expired. */
    method Has(key: string, now: int) returns (present: bool)
      ensures present == Live(entries, key, now)
    {
      present := key in entries && now < entries[key];
    }

    /** `Cache::put` with a time-to-live in seconds. */
    method Put(key: string, ttl: int, now: int)
      modifies this
      ensures entries == Stored(old(entries), key, ttl, now)
    {
      if ttl <= 0 {
        entries := entries - {key};
      } else {
        entries := entries[key := now + ttl];
      }
    }
  }
}

=== FILE: reporter.dfy ===
/**
 * The reporter itself (`ErrorReporter`): the eligibility filter with its
 * rate-limit cache, the choice between queued and synchronous delivery,
 * and the request that a synchronous delivery sends.
 */
module Reporter {
  import opened Wrappers
  import opened Text
  import opened Types
  import opened Fingerprint
  import opened RateLimit
  import opened Payload
  import Title

  /** Why an occurrence is or is not reported, in the order the checks run. */
  datatype Verdict = Disabled | EnvironmentNotListed | Ignored | Duplicate | Accepted

  /** The exception is an instance of some class on the ignore list. */
  predicate IgnoredBy(className: string, ignore: seq<string>, isSubtypeOf: (string, string) -> bool)
  {
    exists j | 0 <= j < |ignore| :: isSubtypeOf(className, ignore[j])
  }

  /** The checks that come before rate limiting all pass. */
  predicate Eligible(config: Config, e: Throwable, environment: string, rt: Runtime)
  {
    config.enabled && environment in config.environments
    && !IgnoredBy(e.className, config.ignore, rt.isSubtypeOf)
  }

  const SecondsPerMinute := 60

  function RateLimitKey(md5: string -> Digest, e: Throwable): string
  {
    CacheKey(GenerateHash(md5, e))
  }

  /** How long a report of the same fingerprint is suppressed, in seconds. */
  function Window(config: Config): int
  {
    SecondsPerMinute * config.cacheMinutes
  }

  /**
   * `shouldReport` as a function of the cache: the verdict of the first
   * failing check (enabled flag, environment list, ignore list, rate limit)
   * and the cache afterwards.
   */
  function Decide(config: Config, cache: map<string, int>, e: Throwable, environment: string,
                  now: int, rt: Runtime): (Verdict, map<string, int>)
  {
    if !config.enabled then (Disabled, cache)
    else if environment !in config.environments then (EnvironmentNotListed, cache)
    else if IgnoredBy(e.className, config.ignore, rt.isSubtypeOf) then (Ignored, cache)
    else if !config.rateLimiting then (Accepted, cache)
    else
      var key := RateLimitKey(rt.md5, e);
      if Live(cache, key, now) then (Duplicate, cache)
      else (Accepted, Stored(cache, key, Window(config), now))
  }

  /**
   * An occurrence is accepted exactly when the first three checks pass and,
   * with rate limiting on, its key is not live in the cache.
   */
  lemma AcceptedIff(config: Config, cache: map<string, int>, e: Throwable, environment: string,
                    now: int, rt: Runtime)
    ensures Decide(config, cache, e, environment, now, rt).0 == Accepted
        <==> Eligible(config, e, environment, rt)
             && (config.rateLimiting ==> !Live(cache, RateLimitKey(rt.md5, e), now))
  {
  }

  /**
   * The cache changes only when rate limiting accepts an occurrence, and
   * then only the occurrence's own key changes.
   */
  lemma OnlyAcceptanceWritesCache(config: Config, cache: map<string, int>, e: Throwable,
                                  environment: string, now: int, rt: Runtime)
    ensures var (verdict, after) := Decide(config, cache, e, environment, now, rt);
      && (verdict != Accepted || !config.rateLimiting ==> after == cache)
      && forall k, t | k != RateLimitKey(rt.md5, e) :: Live(after, k, t) <==> Live(cache, k, t)
  {
  }

  /**
   * A report that rate limiting accepts keeps the same error out for the
   * whole window: a second occurrence with the same class, file and line
   * before the window ends is a duplicate and leaves the cache as it is.
   */
  lemma SecondWithinWindowSuppressed(config: Config, cache: map<string, int>, e1: Throwable,
                                     e2: Throwable, environment: string, now1: int, now2: int,
                                     rt: Runtime)
    requires config.rateLimiting
    requires e1.className == e2.className && e1.file == e2.file && e1.line == e2.line
    requires Decide(config, cache, e1, environment, now1, rt).0 == Accepted
    requires now1 <= now2 < now1 + Window(config)
    ensures var after := Decide(config, cache, e1, environment, now1, rt).1;
      Decide(config, after, e2, environment, now2, rt) == (Duplicate, after)
  {
    var after := Decide(config, cache, e1, environment, now1, rt).1;
    var key := RateLimitKey(rt.md5, e1);
    SameOriginSameFingerprint(rt.md5, e1, e2);
    assert after == Stored(cache, key, Window(config), now1);
    StoredLiveUntilExpiry(cache, key, Window(config), now1, now2);
  }

  /** Once the window has passed, the same error is accepted again. */
  lemma AcceptedAgainAfterWindow(config: Config, cache: map<string, int>, e: Throwable,
                                 environment: string, now1: int, now2: int, rt: Runtime)
    requires config.rateLimiting
    requires Decide(config, cache, e, environment, now1, rt).0 == Accepted
    requires now1 + Window(config) <= now2
    ensures var after := Decide(config, cache, e, environment, now1, rt).1;
      Decide(config, after, e, environment, now2, rt).0 == Accepted
  {
    var key := RateLimitKey(rt.md5, e);
    var after := Decide(config, cache, e, environment, now1, rt).1;
    assert after == Stored(cache, key, Window(config), now1);
    assert !Live(after, key, now2);
  }

  /** The `ReportErrorJob` that is queued: the payload, the configuration and its queue. */
  datatype ReportJob = ReportJob(payload: Payload, config: Config, queue: Option<string>)

  /** The job constructor: it is put on `queue_name` only when that name is truthy. */
  function MakeJob(payload: Payload, config: Config): (job: ReportJob)
    ensures job.payload == payload && job.config == config
    ensures job.queue.Some? <==> TruthyOpt(config.queueName)
    ensures job.queue.Some? ==> job.queue == config.queueName
  {
    ReportJob(payload, config, if TruthyOpt(config.queueName) then config.queueName else None)
  }

  /**
   * The HTTP request `sendReport` issues: a POST of the payload to the
   * webhook with the configured timeout and retry policy, and the
   * `X-Laravel-Secret` header when a secret key is configured.
   */
  datatype HttpPost = HttpPost(
    url: string,
    body: Payload,
    timeoutSeconds: int,
    retryTimes: int,
    retryDelayMs: int,
    secretHeader: Option<string>)

  /** What `sendReport` attempts: nothing when the webhook is not configured, or one POST. */
  datatype Delivery = NotConfigured | Posted(post: HttpPost)

  function SendReport(config: Config, payload: Payload): (d: Delivery)
    ensures d.NotConfigured? <==> !Truthy(config.webhookUrl)
    ensures d.Posted? ==>
      && d.post.url == config.webhookUrl
      && d.post.body == payload
      && d.post.timeoutSeconds == config.httpTimeout
      && d.post.retryTimes == config.httpRetryTimes
      && d.post.retryDelayMs == config.httpRetryDelay
      && (d.post.secretHeader.Some? <==> TruthyOpt(config.secretKey))
      && (d.post.secretHeader.Some? ==> d.post.secretHeader == config.secretKey)
  {
    if !Truthy(config.webhookUrl) then NotConfigured
    else
      var secret := if TruthyOpt(config.secretKey) then config.secretKey else None;
      Posted(HttpPost(config.webhookUrl, payload, config.httpTimeout, config.httpRetryTimes,
                      config.httpRetryDelay, secret))
  }

  /** The tag a successful delivery logs as the hash: `issueTags[2] ?? 'unknown'`. */
  function LoggedHash(payload: Payload): string
  {
    if |payload.issueTags| > 2 then payload.issueTags[2] else "unknown"
  }

  /** The success log names the report's fingerprint. */
  lemma LoggedHashIsFingerprint(e: Throwable, context: map<string, Value>, ambient: Ambient,
                                config: Config, rt: Runtime)
    ensures LoggedHash(PreparePayload(e, context, ambient, config, rt)) == GenerateHash(rt.md5, e)
  {
  }

  /** What one call of `report` does after the filter. */
  datatype Outcome = Suppressed | Queued(job: ReportJob) | Sent(delivery: Delivery)

  class ErrorReporter {
    const config: Config
    const rt: Runtime
    /** The application cache, shared by every reporter. */
    const store: Store

    constructor (config: Config, rt: Runtime, store: Store)
      ensures this.config == config && this.rt == rt && this.store == store
    {
      this.config := config;
      this.rt := rt;
      this.store := store;
    }

    /** `shouldReport`: the checks in order, the ignore list scanned one class at a time. */
    method ShouldReport(e: Throwable, environment: string, now: int) returns (report: bool)
      modifies store
      ensures var (verdict, cache) := Decide(config, old(store.entries), e, environment, now, rt);
        report == (verdict == Accepted) && store.entries == cache
    {
      if !config.enabled {
        return false;
      }
      if environment !in config.environments {
        return false;
      }
      var i := 0;
      while i < |config.ignore|
        invariant 0 <= i <= |config.ignore|
        invariant forall j | 0 <= j < i :: !rt.isSubtypeOf(e.className, config.ignore[j])
      {
        if rt.isSubtypeOf(e.className, config.ignore[i]) {
          return false;
        }
        i := i + 1;
      }
      if config.rateLimiting {
        var key := RateLimitKey(rt.md5, e);
        var present := store.Has(key, now);
        if present {
          return false;
        }
        store.Put(key, Window(config), now);
      }
      return true;
    }

    /**
     * `report`: nothing is built or delivered unless the filter accepts;
     * otherwise the payload goes either to the queue or, synchronously, to
     * `sendReport` - never both.
     */
    method Report(e: Throwable, context: map<string, Value>, ambient: Ambient, now: int)
      returns (outcome: Outcome)
      modifies store
      ensures var (verdict, cache) := Decide(config, old(store.entries), e, ambient.environment, now, rt);
        && store.entries == cache
        && (verdict != Accepted <==> outcome == Suppressed)
        && (verdict == Accepted ==>
              var payload := PreparePayload(e, context, ambient, config, rt);
              outcome == if config.useQueue then Queued(MakeJob(payload, config))
                         else Sent(SendReport(config, payload)))
    {
      var report := ShouldReport(e, ambient.environment, now);
      if !report {
        return Suppressed;
      }
      var payload := PreparePayload(e, context, ambient, config, rt);
      if config.useQueue {
        outcome := Queued(MakeJob(payload, config));
      } else {
        outcome := Sent(SendReport(config, payload));
      }
    }
  }

  /**
   * The end-to-end example: with the shipped configuration, a webhook URL
   * set and the production environment, the first report of
   * `NullPointerAccess` at /app/Foo.php line 42 is posted with the expected
   * title and a `hash-[0-9a-f]{8}` tag, and a second within five minutes is
   * suppressed.
   */
  lemma EndToEndExample(url: string, cache: map<string, int>, now: int, later: int,
                        context: map<string, Value>, ambient: Ambient, rt: Runtime)
    requires Truthy(url)
    requires ambient.environment == "production"
    requires forall j | 0 <= j < |Defaults.ignore| :: !rt.isSubtypeOf("NullPointerAccess", Defaults.ignore[j])
    requires var e := Throwable("NullPointerAccess", "x is null", "/app/Foo.php", 42, []);
      !Live(cache, RateLimitKey(rt.md5, e), now)
    requires now <= later < now + 5 * 60
    ensures var config := Defaults.(webhookUrl := url);
      var e := Throwable("NullPointerAccess", "x is null", "/app/Foo.php", 42, []);
      var (first, after) := Decide(config, cache, e, ambient.environment, now, rt);
      var payload := PreparePayload(e, context, ambient, config, rt);
      && first == Accepted
      && payload.issueTitle == "NullPointerAccess: x is null (Foo.php line 42)"
      && |payload.issueTags[2]| == 13 && payload.issueTags[2][..5] == "hash-"
      && (forall i | 5 <= i < 13 :: IsHexDigit(payload.issueTags[2][i]))
      && SendReport(config, payload).Posted?
      && SendReport(config, payload).post.url == url
      && Decide(config, after, e, ambient.environment, later, rt).0 == Duplicate
  {
    var config := Defaults.(webhookUrl := url);
    var e := Throwable("NullPointerAccess", "x is null", "/app/Foo.php", 42, []);
    assert Eligible(config, e, ambient.environment, rt);
    Title.ExampleTitle();
    SecondWithinWindowSuppressed(config, cache, e, e, ambient.environment, now, later, rt);
  }
}

=== FILE: request_data.dfy ===
/**
 * The request section of the report (`formatRequestData`), and the masking
 * of sensitive request fields in it.
 */
module RequestData {
  import opened Wrappers
  import opened Types
  import Text

  const Mask := "***MASKED***"

  /**
   * The request data after masking: every key listed in `keys` whose value
   * is set (`isset`, so not null) holds the mask; every other entry is kept.
   */
  function Masked(data: map<string, Value>, keys: seq<string>): map<string, Value>
  {
    map k | k in data :: if k in keys && data[k] != Null then Text(Mask) else data[k]
  }

  /** The masking loop, updating a copy of the request data key by key. */
  method MaskSensitive(data: map<string, Value>, keys: seq<string>) returns (masked: map<string, Value>)
    ensures masked == Masked(data, keys)
  {
    masked := data;
    var i := 0;
    while i < |keys|
      invariant 0 <= i <= |keys|
      invariant masked == Masked(data, keys[..i])
    {
      var key := keys[i];
      if key in masked && masked[key] != Null {
        masked := masked[key := Text(Mask)];
      }
      MaskedStep(data, keys, i);
      i := i + 1;
    }
    assert keys[..i] == keys;
  }

  lemma MaskedStep(data: map<string, Value>, keys: seq<string>, i: nat)
    requires i < |keys|
    ensures var before := Masked(data, keys[..i]);
      var key := keys[i];
      Masked(data, keys[..i + 1])
        == if key in before && before[key] != Null then before[key := Text(Mask)] else before
  {
    var before := Masked(data, keys[..i]);
    var after := Masked(data, keys[..i + 1]);
    assert keys[..i + 1] == keys[..i] + [keys[i]];
    forall k | k in data
      ensures k in before && k in after
      ensures before[k] != Null <==> data[k] != Null
      ensures after[k] == if k == keys[i] && before[k] != Null then Text(Mask) else before[k]
    {
    }
  }

  /**
   * Masking adds and removes no key, hides every set sensitive value and
   * leaves every other value as it was.
   */
  lemma MaskingHidesSensitive(data: map<string, Value>, keys: seq<string>)
    ensures Masked(data, keys).Keys == data.Keys
    ensures forall k | k in data && k in keys && data[k] != Null :: Masked(data, keys)[k] == Text(Mask)
    ensures forall k | k in data && (k !in keys || data[k] == Null) :: Masked(data, keys)[k] == data[k]
  {
  }

  /** Masking twice is masking once. */
  lemma MaskingIdempotent(data: map<string, Value>, keys: seq<string>)
    ensures Masked(Masked(data, keys), keys) == Masked(data, keys)
  {
  }

  /** A password among the request fields is masked; the e-mail beside it is not. */
  lemma PasswordExample()
    ensures Masked(map["password" := Text("abc123"), "email" := Text("a@b.com")], ["password"])
         == map["password" := Text(Mask), "email" := Text("a@b.com")]
  {
    var data := map["password" := Text("abc123"), "email" := Text("a@b.com")];
    var m := Masked(data, ["password"]);
    assert "email" !in ["password"];
    assert m.Keys == {"password", "email"};
  }

  /**
   * Two request-data maps that differ only in the set values of sensitive
   * keys.
   */
  predicate SameButSecrets(d1: map<string, Value>, d2: map<string, Value>, keys: seq<string>)
  {
    && d1.Keys == d2.Keys
    && forall k | k in d1 ::
         d1[k] == d2[k] || (k in keys && d1[k] != Null && d2[k] != Null)
  }

  /**
   * The masked data cannot depend on the value of any sensitive top-level
   * field. Nested fields are not looked at, so they are not covered.
   */
  lemma MaskingForgetsSecrets(d1: map<string, Value>, d2: map<string, Value>, keys: seq<string>)
    requires SameButSecrets(d1, d2, keys)
    ensures Masked(d1, keys) == Masked(d2, keys)
  {
    var m1, m2 := Masked(d1, keys), Masked(d2, keys);
    assert m1.Keys == m2.Keys;
    forall k | k in m1 ensures m1[k] == m2[k] {
    }
  }

  /**
   * The request section: "Running in Console" outside a request, otherwise
   * URL, method, IP, user agent (each "N/A" when missing), the user or
   * "Guest", and the masked request data as JSON ("N/A" when empty).
   */
  function FormatRequestData(request: Option<Request>, sensitiveKeys: seq<string>,
                             jsonEncode: map<string, Value> -> string): string
  {
    match request
    case None => "**Running in Console**\n"
    case Some(r) =>
      var data := Masked(r.data, sensitiveKeys);
      "**URL:** " + r.fullUrl.GetOr("N/A") + "\n"
      + "**Method:** " + r.httpMethod.GetOr("N/A") + "\n"
      + "**IP:** " + r.ip.GetOr("N/A") + "\n"
      + "**User Agent:** " + r.userAgent.GetOr("N/A") + "\n"
      + "**User:** " + r.user.GetOr("Guest") + "\n"
      + "**Request Data:**\n```json\n" + (if |data| > 0 then jsonEncode(data) else "N/A") + "\n```\n"
  }

  /**
   * Whatever the JSON encoder does, the request section is the same for two
   * requests with the same URL, method, IP, user agent and user whose data
   * differs only in the values of sensitive top-level keys: the Request Data
   * block cannot depend on those values. The URL is a separate matter (see
   * `UrlSentVerbatim`).
   */
  lemma RequestSectionForgetsSecrets(r1: Request, r2: Request, sensitiveKeys: seq<string>,
                                     jsonEncode: map<string, Value> -> string)
    requires r1.(data := r2.data) == r2
    requires SameButSecrets(r1.data, r2.data, sensitiveKeys)
    ensures FormatRequestData(Some(r1), sensitiveKeys, jsonEncode)
         == FormatRequestData(Some(r2), sensitiveKeys, jsonEncode)
  {
    MaskingForgetsSecrets(r1.data, r2.data, sensitiveKeys);
  }

  /**
   * The URL line carries the full URL as it is, query string included: a
   * sensitive value passed in the query string is not masked there.
   */
  lemma UrlSentVerbatim(r: Request, sensitiveKeys: seq<string>, jsonEncode: map<string, Value> -> string)
    requires r.fullUrl.Some?
    ensures Text.IsPrefix("**URL:** " + r.fullUrl.value + "\n",
                     FormatRequestData(Some(r), sensitiveKeys, jsonEncode))
  {
    var line := "**URL:** " + r.fullUrl.value + "\n";
    var out := FormatRequestData(Some(r), sensitiveKeys, jsonEncode);
    assert out[..|line|] == line;
  }
}

=== FILE: stack_trace.dfy ===
/**
 * The stack-trace section of the report (`formatStackTrace`): the first
 * `stack_trace_lines` frames, one line each, missing keys filled with
 * defaults, joined with newlines.
 */
module StackTrace {
  import opened Wrappers
  import opened Text
  import opened Types

  function Min(a: int, b: int): int { if a <= b then a else b }

  /**
   * `Collection::take(n)`: the first `n` frames, or for a negative `n` the
   * last `-n`; each frame keeps its position in the trace as its key.
   */
  function Take(frames: seq<Frame>, n: int): (r: seq<(nat, Frame)>)
    ensures n >= 0 ==> |r| == Min(n, |frames|)
    ensures n < 0 ==> |r| == Min(-n, |frames|)
    ensures n >= 0 ==> forall k | 0 <= k < |r| :: r[k] == (k, frames[k])
    ensures n < 0 ==> forall k | 0 <= k < |r| ::
      r[k] == (|frames| - |r| + k, frames[|frames| - |r| + k])
  {
    var start := if n >= 0 || |frames| + n < 0 then 0 else |frames| + n;
    var len := if n >= 0 then Min(n, |frames|) else |frames| - start;
    seq(len, k requires 0 <= k < len => (start + k, frames[start + k]))
  }

  function FileOf(f: Frame): string { f.file.GetOr("unknown") }

  function LineOf(f: Frame): int { f.line.GetOr(0) }

  function ClassOf(f: Frame): string { f.className.GetOr("") }

  /** The call operator: only shown for a method, and `::` when the frame gives none. */
  function TypeOf(f: Frame): string {
    if f.className.Some? then f.callType.GetOr("::") else ""
  }

  function FunctionOf(f: Frame): string { f.functionName.GetOr("unknown") }

  /** `"#{index} {file}({line}): {class}{type}{function}()"`. */
  function RenderFrame(index: nat, f: Frame): (r: string)
    ensures IsPrefix("#" + IntToString(index) + " ", r)
    ensures IsPrefix("#" + IntToString(index) + " " + f.file.GetOr("unknown")
                     + "(" + IntToString(f.line.GetOr(0)) + "): ", r)
    ensures IsSuffix("()", r)
    ensures f.className.None? ==> IsSuffix("): " + FunctionOf(f) + "()", r)
    ensures f.className.Some? ==>
      IsSuffix("): " + f.className.value + f.callType.GetOr("::") + FunctionOf(f) + "()", r)
  {
    var head := "#" + IntToString(index) + " ";
    var location := head + FileOf(f) + "(" + IntToString(LineOf(f));
    var call := "): " + ClassOf(f) + TypeOf(f) + FunctionOf(f) + "()";
    var r := location + call;
    assert r[..|head|] == head;
    assert r[..|location| + 3] == location + "): ";
    assert r[|r| - |call|..] == call;
    r
  }

  /** The rendered lines, before they are joined. */
  function FrameLines(frames: seq<Frame>, n: int): (r: seq<string>)
    ensures |r| == |Take(frames, n)|
  {
    var t := Take(frames, n);
    seq(|t|, k requires 0 <= k < |t| => RenderFrame(t[k].0, t[k].1))
  }

  function FormatStackTrace(frames: seq<Frame>, n: int): string
  {
    Join(FrameLines(frames, n), '\n')
  }

  predicate NoNewline(s: string) { '\n' !in s }

  /** No text of the frame contains a line break. */
  predicate FrameOnOneLine(f: Frame) {
    && (f.file.Some? ==> NoNewline(f.file.value))
    && (f.className.Some? ==> NoNewline(f.className.value))
    && (f.callType.Some? ==> NoNewline(f.callType.value))
    && (f.functionName.Some? ==> NoNewline(f.functionName.value))
  }

  lemma IntToStringOnOneLine(n: int)
    ensures NoNewline(IntToString(n))
  {
    var s := IntToString(n);
    forall i | 0 <= i < |s| ensures s[i] != '\n' {
      assert IsDigit(s[i]) || s[i] == '-';
    }
  }

  lemma RenderOnOneLine(index: nat, f: Frame)
    requires FrameOnOneLine(f)
    ensures NoNewline(RenderFrame(index, f))
  {
    IntToStringOnOneLine(index);
    IntToStringOnOneLine(LineOf(f));
  }

  /**
   * Read back line by line, the trace is exactly the rendered frames: as
   * many lines as `take` keeps, at most `stack_trace_lines`, numbered by
   * their position in the trace.
   */
  lemma StackTraceLines(frames: seq<Frame>, n: int)
    requires n != 0 && |frames| > 0
    requires forall i | 0 <= i < |frames| :: FrameOnOneLine(frames[i])
    ensures var lines := Split(FormatStackTrace(frames, n), '\n');
      && (n > 0 ==> |lines| == Min(n, |frames|)
                    && forall k | 0 <= k < |lines| :: lines[k] == RenderFrame(k, frames[k]))
      && (n < 0 ==> |lines| == Min(-n, |frames|)
                    && forall k | 0 <= k < |lines| ::
                         lines[k] == RenderFrame(|frames| - |lines| + k, frames[|frames| - |lines| + k]))
  {
    var lines := FrameLines(frames, n);
    SplitIntoFrameLines(frames, n);
    assert Split(FormatStackTrace(frames, n), '\n') == lines;
    assert |lines| == |Take(frames, n)|;
    FrameLinesRender(frames, n);
  }

  /** Line `k` of the rendered frames renders the `k`-th frame `take` keeps, with its key. */
  lemma FrameLinesRender(frames: seq<Frame>, n: int)
    ensures var lines := FrameLines(frames, n);
      && (n >= 0 ==> forall k | 0 <= k < |lines| :: lines[k] == RenderFrame(k, frames[k]))
      && (n < 0 ==> forall k | 0 <= k < |lines| ::
                      lines[k] == RenderFrame(|frames| - |lines| + k, frames[|frames| - |lines| + k]))
  {
    var t := Take(frames, n);
    var lines := FrameLines(frames, n);
    forall k | 0 <= k < |lines| ensures lines[k] == RenderFrame(t[k].0, t[k].1) {
    }
  }

  lemma SplitIntoFrameLines(frames: seq<Frame>, n: int)
    requires n != 0 && |frames| > 0
    requires forall i | 0 <= i < |frames| :: FrameOnOneLine(frames[i])
    ensures Split(FormatStackTrace(frames, n), '\n') == FrameLines(frames, n)
  {
    var t := Take(frames, n);
    var lines := FrameLines(frames, n);
    forall k | 0 <= k < |lines| ensures '\n' !in lines[k] {
      RenderOnOneLine(t[k].0, t[k].1);
    }
    SplitJoin(lines, '\n');
  }

  /** With no frames, or a limit of zero, the trace is empty. */
  lemma EmptyStackTrace(frames: seq<Frame>, n: int)
    requires n == 0 || |frames| == 0
    ensures FormatStackTrace(frames, n) == ""
  {
  }

  /** A frame with every key missing renders as `#{index} unknown(0): unknown()`. */
  lemma BareFrameRender(index: nat)
    ensures RenderFrame(index, Frame(None, None, None, None, None))
         == "#" + IntToString(index) + " unknown(0): unknown()"
  {
    assert IntToString(0) == "0";
  }

  /** A method frame without a call operator is shown as a static call `Class::function()`. */
  lemma MethodFrameRender(index: nat, file: string, line: int, cls: string, fn: string)
    ensures RenderFrame(index, Frame(Some(file), Some(line), Some(cls), None, Some(fn)))
         == "#" + IntToString(index) + " " + file + "(" + IntToString(line) + "): " + cls + "::" + fn + "()"
  {
  }

  /**
   * A frame without a class is a plain function call: its call operator is
   * not shown, whatever the frame gives, and the line ends in `): {function}()`.
   */
  lemma NoClassNoCallType(index: nat, f: Frame)
    requires f.className.None?
    ensures RenderFrame(index, f) == RenderFrame(index, f.(callType := None))
    ensures IsSuffix("): " + FunctionOf(f) + "()", RenderFrame(index, f))
  {
    var tail := "): " + FunctionOf(f) + "()";
    var head := "#" + IntToString(index) + " " + FileOf(f) + "(" + IntToString(LineOf(f));
    assert RenderFrame(index, f) == head + tail;
    assert (head + tail)[|head + tail| - |tail|..] == tail;
  }
}

=== FILE: tags.dfy ===
/**
 * The issue tags (`generateTags`): four base tags, then the configured
 * additional tags, de-duplicated.
 */
module Tags {
  import opened Text
  import opened Types
  import opened Fingerprint

  predicate NoDuplicates(s: seq<string>) {
    forall i, j | 0 <= i < j < |s| :: s[i] != s[j]
  }

  /**
   * `array_values(array_unique(s))`: the first occurrence of every string,
   * in the order of first occurrence.
   */
  function Unique(s: seq<string>): (r: seq<string>)
    ensures NoDuplicates(r)
    ensures forall x :: x in r <==> x in s
    ensures |r| <= |s|
  {
    if s == [] then []
    else
      var u := Unique(s[..|s| - 1]);
      var x := s[|s| - 1];
      assert forall y :: y in s <==> y in s[..|s| - 1] || y == x by {
        assert s == s[..|s| - 1] + [x];
      }
      if x in u then u else u + [x]
  }

  /** De-duplicating a longer list only appends to the de-duplicated shorter one. */
  lemma {:induction false} UniquePrefix(s: seq<string>, j: nat)
    requires j <= |s|
    ensures |Unique(s[..j])| <= |Unique(s)|
    ensures Unique(s)[..|Unique(s[..j])|] == Unique(s[..j])
    decreases |s| - j
  {
    if j == |s| {
      assert s[..j] == s;
    } else {
      var t := s[..|s| - 1];
      assert t[..j] == s[..j];
      UniquePrefix(t, j);
    }
  }

  /** A list without duplicates is its own de-duplication. */
  lemma {:induction false} UniqueOfDistinct(s: seq<string>)
    requires NoDuplicates(s)
    ensures Unique(s) == s
  {
    if s != [] {
      var t := s[..|s| - 1];
      UniqueOfDistinct(t);
      assert s[|s| - 1] !in t;
      assert t + [s[|s| - 1]] == s;
    }
  }

  function BaseTags(md5: string -> Digest, e: Throwable): seq<string>
  {
    ["bug", "error", GenerateHash(md5, e), Lower(ClassBasename(e.className))]
  }

  /** `array_merge` of the base tags with the additional tags, when there are any. */
  function MergedTags(md5: string -> Digest, e: Throwable, additional: seq<string>): seq<string>
  {
    BaseTags(md5, e) + (if |additional| > 0 then additional else [])
  }

  /**
   * The tag list: no duplicates; exactly the base tags and the additional
   * tags; `bug`, `error` and the fingerprint at indexes 0, 1 and 2.
   */
  function GenerateTags(md5: string -> Digest, e: Throwable, additional: seq<string>): (r: seq<string>)
    ensures NoDuplicates(r)
    ensures forall t :: t in r <==> t in BaseTags(md5, e) || t in additional
    ensures 3 <= |r| && r[0] == "bug" && r[1] == "error" && r[2] == GenerateHash(md5, e)
  {
    var merged := MergedTags(md5, e, additional);
    MergedStart(md5, e, additional);
    FirstThreeKept(merged);
    MergedMembers(md5, e, additional);
    Unique(merged)
  }

  lemma MergedStart(md5: string -> Digest, e: Throwable, additional: seq<string>)
    ensures var merged := MergedTags(md5, e, additional);
      && 3 <= |merged| && merged[0] == "bug" && merged[1] == "error"
      && merged[2] == GenerateHash(md5, e) && |merged[2]| == 13
  {
  }

  lemma FirstThreeKept(merged: seq<string>)
    requires 3 <= |merged| && merged[0] == "bug" && merged[1] == "error" && |merged[2]| == 13
    ensures 3 <= |Unique(merged)|
    ensures Unique(merged)[0] == "bug" && Unique(merged)[1] == "error" && Unique(merged)[2] == merged[2]
  {
    var first := merged[..3];
    assert NoDuplicates(first);
    UniqueOfDistinct(first);
    UniquePrefix(merged, 3);
  }

  lemma MergedMembers(md5: string -> Digest, e: Throwable, additional: seq<string>)
    ensures forall t :: t in MergedTags(md5, e, additional) <==> t in BaseTags(md5, e) || t in additional
  {
    var merged := MergedTags(md5, e, additional);
    if |additional| == 0 {
      assert merged == BaseTags(md5, e);
    } else {
      assert merged == BaseTags(md5, e) + additional;
    }
  }

  // ------------------------------------------------------------ as written

  /**
   * PHP's `array_unique` as it really behaves: it keeps each first
   * occurrence together with its ORIGINAL key, so the keys may have gaps.
   */
  function UniqueKeyed(s: seq<string>): (r: seq<(nat, string)>)
    ensures |r| == |Unique(s)|
    ensures forall i | 0 <= i < |r| :: r[i].1 == Unique(s)[i]
  {
    if s == [] then []
    else
      var u := UniqueKeyed(s[..|s| - 1]);
      var x := s[|s| - 1];
      if x in Unique(s[..|s| - 1]) then u else u + [(|s| - 1, x)]
  }

  /**
   * The key `array_unique` keeps with each tag is the position of the tag's
   * first occurrence, and the keys increase.
   */
  lemma {:induction false} KeyedFirstOccurrences(s: seq<string>)
    ensures forall i | 0 <= i < |UniqueKeyed(s)| ::
      var k := UniqueKeyed(s)[i].0;
      k < |s| && s[k] == UniqueKeyed(s)[i].1 && UniqueKeyed(s)[i].1 !in s[..k]
    ensures forall i, j | 0 <= i < j < |UniqueKeyed(s)| :: UniqueKeyed(s)[i].0 < UniqueKeyed(s)[j].0
  {
    if s != [] {
      var t := s[..|s| - 1];
      var u := UniqueKeyed(t);
      var x := s[|s| - 1];
      KeyedFirstOccurrences(t);
      forall i | 0 <= i < |u|
        ensures u[i].0 < |t| && s[u[i].0] == u[i].1 && u[i].1 !in s[..u[i].0]
      {
        var k := u[i].0;
        assert k < |t| && t[k] == u[i].1 && u[i].1 !in t[..k];
        assert s[..k] == t[..k];
      }
      if x !in Unique(t) {
        assert x !in t;
        assert s[..|s| - 1] == t;
        assert UniqueKeyed(s) == u + [(|s| - 1, x)];
      } else {
        assert UniqueKeyed(s) == u;
      }
    }
  }

  /** An array whose keys are 0, 1, 2, …: `json_encode` writes it as a JSON list. */
  predicate IsList(r: seq<(nat, string)>) {
    forall i | 0 <= i < |r| :: r[i].0 == i
  }

  /** `generateTags` as written: `array_unique` without re-indexing. */
  function GenerateTagsAsWritten(md5: string -> Digest, e: Throwable, additional: seq<string>): (r: seq<(nat, string)>)
    ensures |r| == |GenerateTags(md5, e, additional)|
    ensures forall i | 0 <= i < |r| :: r[i].1 == GenerateTags(md5, e, additional)[i]
  {
    UniqueKeyed(MergedTags(md5, e, additional))
  }

  /**
   * An exception of PHP's own class `Error` yields the tag "error" twice;
   * with an additional tag configured, the surviving keys are 0, 1, 2, 4,
   * so the tags reach the webhook as a JSON object, not a list.
   */
  lemma TagsAsWrittenNotAList(md5: string -> Digest, line: int, file: string)
    ensures var e := Throwable("Error", "m", file, line, []);
      var r := GenerateTagsAsWritten(md5, e, ["laravel"]);
      |r| == 4 && r[3] == (4, "laravel") && !IsList(r)
  {
    var e := Throwable("Error", "m", file, line, []);
    var fp := GenerateHash(md5, e);
    assert ClassBasename("Error") == "Error" by {
      assert '\\' !in "Error" && '/' !in "Error";
    }
    assert Lower("Error") == "error";
    assert MergedTags(md5, e, ["laravel"]) == ["bug", "error", fp, "error", "laravel"];
    assert |fp| == 13;
    KeyedWithInnerDuplicate("bug", "error", fp, "laravel");
  }

  /** `array_unique` of `[a, b, c, b, d]` keeps keys 0, 1, 2 and 4. */
  lemma KeyedWithInnerDuplicate(a: string, b: string, c: string, d: string)
    requires NoDuplicates([a, b, c, d])
    ensures UniqueKeyed([a, b, c, b, d]) == [(0, a), (1, b), (2, c), (4, d)]
  {
    var q := [a, b, c, d];
    assert q[0] != q[1] && q[0] != q[2] && q[1] != q[2];
    assert q[0] != q[3] && q[1] != q[3] && q[2] != q[3];
    KeyedOfThree(a, b, c);
    var p := [a, b, c];
    assert b in p && d !in p;
    KeyedSkipsSeen(p, b);
    KeyedAppendsNew(p + [b], d);
    assert p + [b] + [d] == [a, b, c, b, d];
  }

  /** A tag seen before is dropped, and the keys kept so far stay as they are. */
  lemma KeyedSkipsSeen(s: seq<string>, x: string)
    requires x in s
    ensures Unique(s + [x]) == Unique(s)
    ensures UniqueKeyed(s + [x]) == UniqueKeyed(s)
  {
    KeyedSnoc(s, x);
  }

  /** A new tag is kept with its position as its key. */
  lemma KeyedAppendsNew(s: seq<string>, x: string)
    requires x !in s
    ensures UniqueKeyed(s + [x]) == UniqueKeyed(s) + [(|s|, x)]
  {
    KeyedSnoc(s, x);
  }

  lemma KeyedOfThree(a: string, b: string, c: string)
    requires a != b && a != c && b != c
    ensures Unique([a, b, c]) == [a, b, c]
    ensures UniqueKeyed([a, b, c]) == [(0, a), (1, b), (2, c)]
  {
    var p := [a, b, c];
    assert NoDuplicates(p);
    UniqueOfDistinct(p);
    KeyedOfDistinct(p);
  }

  /** Without duplicates, every element keeps its own position as its key. */
  lemma {:induction false} KeyedOfDistinct(s: seq<string>)
    requires NoDuplicates(s)
    ensures |UniqueKeyed(s)| == |s|
    ensures forall i | 0 <= i < |s| :: UniqueKeyed(s)[i] == (i, s[i])
  {
    if s != [] {
      var t := s[..|s| - 1];
      KeyedOfDistinct(t);
      UniqueOfDistinct(t);
      UniqueOfDistinct(s);
      assert s[|s| - 1] !in t;
    }
  }

  /** One more tag at the end: it is kept unless it was seen before. */
  lemma UniqueSnoc(s: seq<string>, x: string)
    ensures Unique(s + [x]) == if x in Unique(s) then Unique(s) else Unique(s) + [x]
  {
    var sx := s + [x];
    assert sx[..|sx| - 1] == s;
    assert sx[|sx| - 1] == x;
  }

  /** One more tag at the end: it is kept, with its key, unless it was seen before. */
  lemma KeyedSnoc(s: seq<string>, x: string)
    ensures Unique(s + [x]) == if x in Unique(s) then Unique(s) else Unique(s) + [x]
    ensures UniqueKeyed(s + [x]) == if x in Unique(s) then UniqueKeyed(s) else UniqueKeyed(s) + [(|s|, x)]
  {
    UniqueSnoc(s, x);
    var sx := s + [x];
    assert sx[..|sx| - 1] == s;
    assert sx[|sx| - 1] == x;
  }
}

=== FILE: text.dfy ===
/**
 * The string primitives the reporter relies on, written out as PHP defines
 * them: `%d` formatting, `basename`, Laravel's `class_basename`,
 * `strtolower`, `str_replace` of one character, `rtrim`, `implode` and
 * PHP's truthiness of strings.
 */
module Text {
  import opened Wrappers

  predicate IsDigit(c: char) { '0' <= c <= '9' }

  predicate IsPrefix(p: string, s: string) { |p| <= |s| && s[..|p|] == p }

  predicate IsSuffix(p: string, s: string) { |p| <= |s| && s[|s| - |p|..] == p }

  /** `t` occurs in `s` as a contiguous block. */
  predicate Contains(s: string, t: string) {
    exists i | 0 <= i <= |s| :: OccursAt(s, t, i)
  }

  predicate OccursAt(s: string, t: string, i: int) {
    0 <= i <= |s| - |t| && s[i..i + |t|] == t
  }

  lemma PrefixIsContained(p: string, s: string)
    requires IsPrefix(p, s)
    ensures Contains(s, p)
  {
    assert OccursAt(s, p, 0);
  }

  lemma ContainedInMiddle(a: string, t: string, b: string)
    ensures Contains(a + t + b, t)
  {
    var s := a + t + b;
    assert OccursAt(s, t, |a|);
  }

  lemma ContainedAfterPrefix(p: string, t: string, s: string)
    requires IsPrefix(p + t, s)
    ensures Contains(s, t)
  {
    assert s[|p|..|p| + |t|] == (p + t)[|p|..];
    assert OccursAt(s, t, |p|);
  }

  // ---------------------------------------------------------------- %d

  function DigitChar(d: nat): (c: char)
    requires d < 10
    ensures IsDigit(c)
  {
    (('0' as int) + d) as char
  }

  function DigitValue(c: char): int { (c as int) - ('0' as int) }

  /** Decimal digits of `n`, most significant first, without leading zeros. */
  function NatToString(n: nat): (s: string)
    ensures |s| > 0 && forall i | 0 <= i < |s| :: IsDigit(s[i])
    ensures s[0] == '0' ==> n == 0 && |s| == 1
    decreases n
  {
    if n < 10 then [DigitChar(n)]
    else
      var high := NatToString(n / 10);
      assert (high + [DigitChar(n % 10)])[0] == high[0];
      high + [DigitChar(n % 10)]
  }

  /** PHP's `sprintf('%d', n)`. */
  function IntToString(n: int): (s: string)
    ensures |s| > 0
    ensures forall i | 0 <= i < |s| :: IsDigit(s[i]) || (i == 0 && s[i] == '-')
    ensures s[0] == '-' <==> n < 0
    ensures var digits := if n < 0 then s[1..] else s;
      |digits| > 0 && (digits[0] == '0' ==> n == 0 && |digits| == 1)
  {
    if n < 0 then "-" + NatToString(-n) else NatToString(n)
  }

  /** Reads a string of decimal digits back as a number. */
  function ParseNat(s: string): int
  {
    if s == [] then 0 else ParseNat(s[..|s| - 1]) * 10 + DigitValue(s[|s| - 1])
  }

  function ParseInt(s: string): int
  {
    if |s| > 0 && s[0] == '-' then -ParseNat(s[1..]) else ParseNat(s)
  }

  lemma {:induction false} ParseNatToString(n: nat)
    ensures ParseNat(NatToString(n)) == n
    decreases n
  {
    var s := NatToString(n);
    if n < 10 {
      assert s[..|s| - 1] == [];
    } else {
      assert s[..|s| - 1] == NatToString(n / 10);
      ParseNatToString(n / 10);
    }
  }

  /** `%d` loses nothing: the number can be read back from its text. */
  lemma IntToStringRoundTrip(n: int)
    ensures ParseInt(IntToString(n)) == n
  {
    if n < 0 {
      assert IntToString(n)[1..] == NatToString(-n);
      ParseNatToString(-n);
    } else {
      ParseNatToString(n);
    }
  }

  lemma IntToStringInjective(m: int, n: int)
    requires IntToString(m) == IntToString(n)
    ensures m == n
  {
    IntToStringRoundTrip(m);
    IntToStringRoundTrip(n);
  }

  // ---------------------------------------------------------------- basename

  function StripTrailingSlashes(p: string): (r: string)
    ensures IsPrefix(r, p)
    ensures |r| == 0 || r[|r| - 1] != '/'
    ensures forall i | |r| <= i < |p| :: p[i] == '/'
  {
    if |p| > 0 && p[|p| - 1] == '/' then StripTrailingSlashes(p[..|p| - 1]) else p
  }

  function AfterLastSlash(p: string): (r: string)
    ensures IsSuffix(r, p)
    ensures '/' !in r
    ensures |r| < |p| ==> p[|p| - |r| - 1] == '/'
  {
    if |p| == 0 || p[|p| - 1] == '/' then ""
    else AfterLastSlash(p[..|p| - 1]) + [p[|p| - 1]]
  }

  /**
   * PHP's `basename` on a POSIX path: trailing slashes are dropped, then the
   * last component is kept.
   */
  function Basename(path: string): (r: string)
    ensures '/' !in r
    ensures IsSuffix(r, StripTrailingSlashes(path))
    ensures var s := StripTrailingSlashes(path); |r| < |s| ==> s[|s| - |r| - 1] == '/'
    ensures '/' !in path ==> r == path
  {
    if '/' !in path then
      assert StripTrailingSlashes(path) == path;
      assert AfterLastSlash(path) == path by { AfterLastSlashNoSlash(path); }
      AfterLastSlash(StripTrailingSlashes(path))
    else
      AfterLastSlash(StripTrailingSlashes(path))
  }

  lemma {:induction false} AfterLastSlashNoSlash(p: string)
    requires '/' !in p
    ensures AfterLastSlash(p) == p
  {
    if |p| > 0 {
      assert '/' !in p[..|p| - 1];
      AfterLastSlashNoSlash(p[..|p| - 1]);
    }
  }

  /** Replaces every `from` in `s` by `to` (PHP's `str_replace` of one character). */
  function ReplaceChar(s: string, from: char, to: char): (r: string)
    ensures |r| == |s|
    ensures forall i | 0 <= i < |s| :: r[i] == (if s[i] == from then to else s[i])
  {
    seq(|s|, i requires 0 <= i < |s| => if s[i] == from then to else s[i])
  }

  /** Laravel's `class_basename`: the class name after its last namespace separator. */
  function ClassBasename(className: string): (r: string)
    ensures '\\' !in r && '/' !in r
    ensures var s := StripTrailingSlashes(ReplaceChar(className, '\\', '/'));
      IsSuffix(r, s) && (|r| < |s| ==> s[|s| - |r| - 1] == '/')
    ensures '\\' !in className && '/' !in className ==> r == className
  {
    var slashed := ReplaceChar(className, '\\', '/');
    assert '\\' !in className && '/' !in className ==> slashed == className;
    var r := Basename(slashed);
    SlashedHasNoBackslash(className, r);
    r
  }

  /** After `\\` became `/`, no part of the name holds a `\\`. */
  lemma SlashedHasNoBackslash(className: string, r: string)
    requires IsSuffix(r, StripTrailingSlashes(ReplaceChar(className, '\\', '/')))
    ensures '\\' !in r
  {
    var slashed := ReplaceChar(className, '\\', '/');
    var stripped := StripTrailingSlashes(slashed);
    forall i | 0 <= i < |r| ensures r[i] != '\\' {
      assert r[i] == stripped[|stripped| - |r| + i];
      assert stripped[|stripped| - |r| + i] == slashed[|stripped| - |r| + i];
    }
  }

  // ---------------------------------------------------------------- strtolower

  function LowerChar(c: char): char {
    if 'A' <= c <= 'Z' then ((c as int) + 32) as char else c
  }

  /** `strtolower` as PHP 8.2 and later define it: ASCII letters only. */
  function Lower(s: string): (r: string)
    ensures |r| == |s|
    ensures forall i | 0 <= i < |s| :: r[i] == LowerChar(s[i])
  {
    seq(|s|, i requires 0 <= i < |s| => LowerChar(s[i]))
  }

  // ---------------------------------------------------------------- rtrim

  /** The characters PHP's `rtrim` removes by default. */
  predicate IsPhpSpace(c: char) {
    c == ' ' || c == '\t' || c == '\n' || c == '\r' || c == 0 as char || c == 11 as char
  }

  function RTrim(s: string): (r: string)
    ensures IsPrefix(r, s)
    ensures |r| == 0 || !IsPhpSpace(r[|r| - 1])
    ensures forall i | |r| <= i < |s| :: IsPhpSpace(s[i])
  {
    if |s| > 0 && IsPhpSpace(s[|s| - 1]) then RTrim(s[..|s| - 1]) else s
  }

  // ---------------------------------------------------------------- implode / split

  /** PHP's `implode` with a one-character glue. */
  function Join(parts: seq<string>, sep: char): string
  {
    if |parts| == 0 then ""
    else if |parts| == 1 then parts[0]
    else parts[0] + [sep] + Join(parts[1..], sep)
  }

  /** The inverse of `Join`: the pieces of `s` between occurrences of `sep`. */
  function Split(s: string, sep: char): (r: seq<string>)
    ensures |r| > 0
  {
    if |s| == 0 then [""]
    else if s[0] == sep then [""] + Split(s[1..], sep)
    else var rest := Split(s[1..], sep); [[s[0]] + rest[0]] + rest[1..]
  }

  lemma {:induction false} SplitWithout(s: string, sep: char)
    requires sep !in s
    ensures Split(s, sep) == [s]
  {
    if |s| > 0 {
      assert sep !in s[1..];
      SplitWithout(s[1..], sep);
      assert [s[0]] + s[1..] == s;
    }
  }

  lemma {:induction false} SplitAfterPiece(a: string, sep: char, b: string)
    requires sep !in a
    ensures Split(a + [sep] + b, sep) == [a] + Split(b, sep)
  {
    var s := a + [sep] + b;
    if |a| == 0 {
      assert s == [sep] + b;
      assert s[1..] == b;
    } else {
      assert s[1..] == a[1..] + [sep] + b;
      assert sep !in a[1..];
      SplitAfterPiece(a[1..], sep, b);
      assert [a[0]] + a[1..] == a;
    }
  }

  /** Splitting a joined list of separator-free pieces gives the pieces back. */
  lemma {:induction false} SplitJoin(parts: seq<string>, sep: char)
    requires |parts| > 0
    requires forall i | 0 <= i < |parts| :: sep !in parts[i]
    ensures Split(Join(parts, sep), sep) == parts
  {
    if |parts| == 1 {
      SplitWithout(parts[0], sep);
    } else {
      SplitAfterPiece(parts[0], sep, Join(parts[1..], sep));
      SplitJoin(parts[1..], sep);
      assert [parts[0]] + parts[1..] == parts;
    }
  }

  // ---------------------------------------------------------------- truthiness

  /** PHP's truthiness of a string: everything but "" and "0". */
  predicate Truthy(s: string) { s != "" && s != "0" }

  /** PHP's truthiness of a nullable string. */
  predicate TruthyOpt(s: Option<string>) { s.Some? && Truthy(s.value) }
}

=== FILE: title.dfy ===
/** The issue title (`formatTitle`) and Laravel's `Str::limit` it uses. */
module Title {
  import opened Text
  import opened Types

  /** The number of message characters a title keeps. */
  const MessageLimit: nat := 80

  const Ellipsis := "..."

  /**
   * `Str::limit(s, limit)`: a string of at most `limit` characters is kept
   * as is; a longer one is cut to `limit`, trailing whitespace of the cut is
   * dropped, and "..." is appended.
   */
  function Limit(s: string, limit: nat): (r: string)
    ensures |s| <= limit ==> r == s
    ensures |s| > limit ==>
      && 3 <= |r| <= limit + 3
      && IsSuffix(Ellipsis, r)
      && IsPrefix(r[..|r| - 3], s)
      && (|r| == 3 || !IsPhpSpace(r[|r| - 4]))
      && forall i | |r| - 3 <= i < limit :: IsPhpSpace(s[i])
  {
    if |s| <= limit then s
    else
      var kept := RTrim(s[..limit]);
      assert (kept + Ellipsis)[..|kept|] == kept;
      kept + Ellipsis
  }

  /** `"{ShortClass}: {message limited to 80} ({basename(file)} line {line})"`. */
  function FormatTitle(e: Throwable): (r: string)
    ensures IsPrefix(ClassBasename(e.className) + ": " + Limit(e.message, MessageLimit), r)
    ensures IsSuffix(" (" + Basename(e.file) + " line " + IntToString(e.line) + ")", r)
    ensures |r| == |ClassBasename(e.className)| + 2 + |Limit(e.message, MessageLimit)|
                   + 2 + |Basename(e.file)| + 6 + |IntToString(e.line)| + 1
  {
    var head := ClassBasename(e.className) + ": " + Limit(e.message, MessageLimit);
    var tail := " (" + Basename(e.file) + " line " + IntToString(e.line) + ")";
    assert (head + tail)[..|head|] == head;
    assert (head + tail)[|head|..] == tail;
    head + tail
  }

  /** A message of at most 80 characters appears verbatim in the title. */
  lemma ShortMessageVerbatim(e: Throwable)
    requires |e.message| <= MessageLimit
    ensures Contains(FormatTitle(e), e.message)
  {
    assert Limit(e.message, MessageLimit) == e.message;
    ContainedAfterPrefix(ClassBasename(e.className) + ": ", e.message, FormatTitle(e));
  }

  /** The title of the end-to-end example. */
  lemma ExampleTitle()
    ensures FormatTitle(Throwable("NullPointerAccess", "x is null", "/app/Foo.php", 42, []))
         == "NullPointerAccess: x is null (Foo.php line 42)"
  {
    var e := Throwable("NullPointerAccess", "x is null", "/app/Foo.php", 42, []);
    ExampleClass();
    ExampleBasename();
    ExampleLine();
    ExampleMessage();
    TitleFromParts(e);
    ExampleText();
  }

  /** The title put together from its four rendered parts. */
  lemma TitleFromParts(e: Throwable)
    ensures FormatTitle(e)
         == (ClassBasename(e.className) + ": " + Limit(e.message, MessageLimit))
          + (" (" + Basename(e.file) + " line " + IntToString(e.line) + ")")
  {
  }

  lemma ExampleMessage()
    ensures Limit("x is null", MessageLimit) == "x is null"
  {
    assert |"x is null"| <= MessageLimit;
  }

  lemma ExampleText()
    ensures ("NullPointerAccess" + ": " + "x is null") + (" (" + "Foo.php" + " line " + "42" + ")")
         == "NullPointerAccess: x is null (Foo.php line 42)"
  {
  }

  lemma ExampleClass()
    ensures ClassBasename("NullPointerAccess") == "NullPointerAccess"
  {
    var c := "NullPointerAccess";
    assert '\\' !in c && '/' !in c;
  }

  lemma ExampleBasename()
    ensures Basename("/app/Foo.php") == "Foo.php"
  {
    var p := "/app/Foo.php";
    assert StripTrailingSlashes(p) == p;
    assert AfterLastSlash(p[..5]) == "" by { assert p[..5][4] == '/'; }
    assert p[..6][..5] == p[..5];
    assert p[..7][..6] == p[..6];
    assert p[..8][..7] == p[..7];
    assert p[..9][..8] == p[..8];
    assert p[..10][..9] == p[..9];
    assert p[..11][..10] == p[..10];
    assert p[..12] == p && p[..11] == p[..12][..11];
    assert AfterLastSlash(p) == "Foo.php";
  }

  lemma ExampleLine()
    ensures IntToString(42) == "42"
  {
    assert NatToString(4) == "4";
    assert NatToString(42) == NatToString(4) + [DigitChar(2)];
  }
}

=== FILE: types.dfy ===
/**
 * The values the reporter works on: the reported exception, the request it
 * happened in, the package configuration, and the foreign primitives
 * (md5, `instanceof`, `json_encode`) that it calls but does not define.
 */
module Types {
  import opened Wrappers

  predicate IsHexDigit(c: char) { '0' <= c <= '9' || 'a' <= c <= 'f' }

  /** The shape of PHP's `md5()` result: 32 lowercase hexadecimal characters. */
  type Digest = s: string | |s| == 32 && forall i | 0 <= i < |s| :: IsHexDigit(s[i])
    witness "00000000000000000000000000000000"

  /**
   * A request-data or context value as far as the reporter can tell them
   * apart: PHP `null`, a scalar shown as text, or a nested array kept as
   * its JSON text.
   */
  datatype Value = Null | Text(text: string) | Composite(json: string)

  /** One entry of `Throwable::getTrace()`; every key may be missing. */
  datatype Frame = Frame(
    file: Option<string>,
    line: Option<int>,
    className: Option<string>,
    callType: Option<string>,
    functionName: Option<string>)

  /** The reported exception: fully qualified class, message, origin and trace. */
  datatype Throwable = Throwable(
    className: string,
    message: string,
    file: string,
    line: int,
    trace: seq<Frame>)

  /**
   * The HTTP request being served when the error happened. `user` is the
   * authenticated user's e-mail (or id), `None` for a guest.
   */
  datatype Request = Request(
    fullUrl: Option<string>,
    httpMethod: Option<string>,
    ip: Option<string>,
    userAgent: Option<string>,
    user: Option<string>,
    data: map<string, Value>)

  /**
   * What `parse_url(config('app.url'), PHP_URL_HOST)` yields: a host, `null`
   * (no host part), or `false` (a URL it cannot parse).
   */
  datatype UrlHost = Host(name: string) | NoHost | Unparseable

  /**
   * What the reporter reads from the running application rather than from
   * its configuration: `app()->environment()`, `PHP_VERSION`,
   * `app()->version()`, `now()` as text, `request()` (`None` when running in
   * the console) and the host of `app.url`.
   */
  datatype Ambient = Ambient(
    environment: string,
    phpVersion: string,
    laravelVersion: string,
    time: string,
    request: Option<Request>,
    appUrlHost: UrlHost)

  /**
   * Foreign primitives: PHP's md5, the host's class hierarchy
   * (`$exception instanceof $class` for a class named by a string) and
   * `json_encode(…, JSON_PRETTY_PRINT)` of an array.
   */
  datatype Runtime = Runtime(
    md5: string -> Digest,
    isSubtypeOf: (string, string) -> bool,
    jsonEncode: map<string, Value> -> string)

  /** The package configuration (`config/error-reporter.php`). */
  datatype Config = Config(
    enabled: bool,
    webhookUrl: string,
    repository: Option<string>,
    secretKey: Option<string>,
    environments: seq<string>,
    useQueue: bool,
    queueName: Option<string>,
    rateLimiting: bool,
    cacheMinutes: int,
    httpTimeout: int,
    httpRetryTimes: int,
    httpRetryDelay: int,
    ignore: seq<string>,
    additionalTags: seq<string>,
    includeRequestData: bool,
    sensitiveKeys: seq<string>,
    stackTraceLines: int)

  /** The values `config/error-reporter.php` ships with, environment variables unset. */
  const Defaults: Config := Config(
    enabled := true,
    webhookUrl := "",
    repository := None,
    secretKey := None,
    environments := ["production"],
    useQueue := false,
    queueName := Some("default"),
    rateLimiting := true,
    cacheMinutes := 5,
    httpTimeout := 10,
    httpRetryTimes := 3,
    httpRetryDelay := 100,
    ignore := [
      "Illuminate\\Auth\\AuthenticationException",
      "Illuminate\\Auth\\Access\\AuthorizationException",
      "Symfony\\Component\\HttpKernel\\Exception\\HttpException",
      "Illuminate\\Database\\Eloquent\\ModelNotFoundException",
      "Illuminate\\Validation\\ValidationException"],
    additionalTags := [],
    includeRequestData := true,
    sensitiveKeys := ["password", "password_confirmation", "credit_card", "cvv", "token", "secret", "api_key"],
    stackTraceLines := 10)
}

=== FILE: wrappers.dfy ===
/** Optional values, standing for PHP's `null` and for array keys that are not set. */
module Wrappers {

  datatype Option<+T> = None | Some(value: T) {

    /** The value, or `default` when there is none (PHP's `??`). */
    function GetOr(default: T): T {
      match this
      case Some(v) => v
      case None => default
    }
  }
}
